=== FILE: README.md ===
# CliniqueQ study tools, modelled in Dafny

CliniqueQ is a Next.js question-bank and study app. This project models its
computational core and proves properties of the model:

- **Daily tracker** (`daily_tracker.dfy`). This is the profile heatmap.
  - `GenerateHeatmapData` produces one cell per day over a date range, on whole day numbers. It gives each day up to today a random count and every later day zero. The source labels its cells by UTC date while stepping in local time, so in some time zones it does not quite do this; see "## Left out".
  - `CalculateStats` keeps only the cells dated up to today. From those it computes the current streak, the longest streak, the average number of questions per day and the fixed placeholder score.
  - `ClassForValue` picks a cell's colour bucket.
- **Session list** (`session_list.dfy`). This is the study page's list of sessions. It filters by a case-insensitive subject search, then by a tag, then by a time window, and sorts the result with the latest start first. It also shows a 100-character notes preview.
- **Statistics panel** (`stats.dfy`). It shows the time studied since local midnight, the time studied in the last seven days, and the number of sessions.
- **Navigation bar** (`nav_bar.dfy`). It covers:
  - the current route, taken from the pathname;
  - the pages shown in the main navigation, under "More", in the sidebar and in the mobile menu;
  - each page's label and its links.
- **MST watcher** (`mst_watcher.dfy`). It walks the `public/Modules` directory tree (Module → Subject → Topic) into the structure written to `mst.json`. It covers both watcher classes, and starting and stopping the directory watch.

Supporting modules:

- `seqs.dfy`: `Array.prototype.filter` and a subsequence relation.
- `text.dfy`: `toLowerCase`, `toUpperCase` and `includes` on ASCII strings.
- `study_sessions.dfy`: the session record.
- `wrappers.dfy`: `Option`.

## How things are represented

- **Dates.**
  - In the tracker, dates are whole day numbers.
  - Session times are milliseconds since the epoch.
  - The clock values (`today`, `now`, local midnight) are parameters.
- **Random counts.** `Math.random` in the heatmap becomes an arbitrary choice. It can be 0, or any count from 1 to 10, which are the values the source can produce.
- **The average.** The average questions per day is kept as an exact quotient `Mean(total, days)`, or `NoData` when there are no past days. The source shows 0 in that case.
- **The filesystem.** The filesystem under `public/Modules` is a tree value.
  - A directory whose listing cannot be read stands for a `readdirSync` that throws.
  - `public/mst.json` is one `OutputFile` object. Every watcher that writes or reads it holds the same object, so a write by one watcher class is what the other reads.
  - Whether `writeFileSync` succeeds is a parameter.
  - An `fs.watch` handle is a small `DirWatch` object.
- **The session type.** The session list and the statistics panel import a `Session` type with `start`/`end` fields from `@/app/study/page.tsx` (`components/SessionList.tsx:5`, `components/Stats.tsx:5`). The statistics panel also imports `formatTime` from there (`components/Stats.tsx:6`). The study page in this repository is `app/(logined-users)/study/page.tsx`. It declares `StudySession`, with `startTime`/`endTime` (`app/(logined-users)/study/page.tsx:10-18`), and exports neither `Session` nor `formatTime`. The model uses the fields the two components actually read.

## Model

| member | source | states |
|---|---|---|
| DailyTracker.GenerateHeatmapData | components/Profile/DailyTracker.tsx:16-32 | one entry per day from start to end inclusive, dated consecutively; days after today have count 0; every count lies in 0..10 |
| DailyTracker.PastData | components/Profile/DailyTracker.tsx:36 | an entry takes part in the statistics iff it is in the data and dated on or before today |
| DailyTracker.PastOfConsecutiveIsPrefix | components/Profile/DailyTracker.tsx:16-36 | on consecutively dated data the past entries are exactly a prefix, of the length fixed by today's position in the range |
| DailyTracker.FindDate | components/Profile/DailyTracker.tsx:43 | `find` returns nothing iff no entry has today's date, and otherwise the first entry with that date |
| DailyTracker.TodayIsLastPastEntry | components/Profile/DailyTracker.tsx:42-46 | when today lies in the generated range, the entry `find` returns is the last past entry, so the backward count starts at today |
| DailyTracker.CurrentStreak | components/Profile/DailyTracker.tsx:42-53 | the current streak is the number of trailing active entries when today's entry exists and is active, and 0 otherwise |
| DailyTracker.TrailingActiveIsLongestActiveSuffix | components/Profile/DailyTracker.tsx:46-52 | the backward count covers an all-active suffix and stops at an inactive entry or at the start |
| DailyTracker.LongestStreakAndTotal | components/Profile/DailyTracker.tsx:55-71 | the forward pass with its final check yields the longest active run and the sum of the counts |
| DailyTracker.LongestRunIsMaximal | components/Profile/DailyTracker.tsx:55-71 | the longest streak is the length of some run of consecutive active entries, and no such run is longer |
| DailyTracker.TrailingActiveAtMostLongestRun | components/Profile/DailyTracker.tsx:42-71 | the trailing active run is never longer than the longest run |
| DailyTracker.CalculateStats | components/Profile/DailyTracker.tsx:35-79 | the statistics are computed over the entries dated up to today: both streaks, the average as total over past days (no data when there are none), the score 78; the current streak never exceeds the longest |
| DailyTracker.ClassForValue | components/Profile/DailyTracker.tsx:120-128 | empty iff there is no value or the count is 0; counts up to 2, 3-5, 6-8 and above 8 get scale 1, 2, 3 and 4 |
| DailyTracker.ClassForValueMonotone | components/Profile/DailyTracker.tsx:120-128 | a larger non-negative count never gets a lower bucket |
| Seqs.Filter | components/SessionList.tsx:17-27 | `filter` keeps exactly the elements that satisfy the predicate and never lengthens the list |
| Seqs.FilterCounts | components/SessionList.tsx:17-27 | `filter` keeps each satisfying element as often as it occurs and drops every other one |
| Seqs.FilterKeepsOrder | components/NavBar.tsx:28 | `filter` keeps the relative order of what it keeps |
| Text.ToLower | components/SessionList.tsx:19 | lower-casing keeps the length and maps each letter on its own |
| Text.Includes | components/SessionList.tsx:19 | `includes` holds only when the search text fits in the string, and holds whenever the string starts with it; IncludesIffOccurs gives the full characterisation |
| Text.IncludesIffOccurs | components/SessionList.tsx:19 | `includes` holds iff the search text occurs at some offset, in both directions |
| Text.IncludesEmpty | components/SessionList.tsx:19 | every string includes the empty string |
| SessionList.SortByStartDesc | components/SessionList.tsx:28 | the comparator sort orders by start time, latest first, and is a permutation of its input |
| SessionList.FilteredSessions | components/SessionList.tsx:17-28 | the list is sorted latest first; it holds each session that passes the subject, tag and time filters as often as the input does, and no other session |
| SessionList.SubjectMatches | components/SessionList.tsx:18-20 | a session passes the subject search iff its lower-cased subject contains the lower-cased search at some offset |
| SessionList.TagMatches | components/SessionList.tsx:21 | a session passes the tag filter iff the filter is empty or equals one of the session's tags |
| SessionList.InTimeWindow | components/SessionList.tsx:22-27 | "all" keeps every session; "last n days" keeps a session iff it started at most n days of milliseconds before now |
| SessionList.EmptySearchMatches | components/SessionList.tsx:18-20 | an empty subject search matches every session |
| SessionList.NoFilterKeepsEverySession | components/SessionList.tsx:17-28 | with an empty search, no tag and the "all" window the list is a reordering of all sessions |
| SessionList.KeptSubjectContainsSearch | components/SessionList.tsx:17-27 | a listed session's lower-cased subject contains the lower-cased search, it carries the tag when one is set, and it starts within the window |
| SessionList.NotesPreview | components/SessionList.tsx:74 | notes of at most 100 characters are shown whole; longer notes show their first 100 characters followed by "..." |
| Stats.TotalSinceIsConditionalSum | components/Stats.tsx:14-26 | filtering by start and summing durations equals summing the durations of the sessions that start at or after the cutoff |
| Stats.LaterCutoffNoLarger | components/Stats.tsx:14-26 | with non-negative durations a later cutoff never gives a larger total |
| Stats.CutoffTotalAtMostAll | components/Stats.tsx:14-26 | with non-negative durations neither total exceeds the sum over all sessions |
| Stats.TodayAtMostThisWeek | components/Stats.tsx:14-26 | when local midnight is within the last seven days, today's total is at most the week's total |
| Stats.EmptyStats | components/Stats.tsx:14-28 | with no sessions both totals and the count are 0 |
| Stats.TotalToday | components/Stats.tsx:14-19 | today's total is the sum of the durations of the sessions starting at or after local midnight; with non-negative durations it is at most the total over all sessions |
| Stats.TotalThisWeek | components/Stats.tsx:21-26 | the week's total is the sum of the durations of the sessions starting at or after seven days of milliseconds before now; with non-negative durations it is at most the total over all sessions |
| Stats.SessionCount | components/Stats.tsx:28 | the count is the number of sessions, repeated ones included |
| Stats.NewSessionAddsItsDuration | components/Stats.tsx:14-28 | one more session raises a total by its duration exactly when it starts at or after that total's cutoff, and raises the count by one |
| NavBar.Split | components/NavBar.tsx:22 | `split` yields at least one piece and no piece contains the separator |
| NavBar.SplitCount | components/NavBar.tsx:22 | `split` yields one more piece than there are separators |
| NavBar.JoinSplit | components/NavBar.tsx:22 | joining the pieces of `split` with the separator gives the string back |
| NavBar.CurrentRoute | components/NavBar.tsx:22 | "/" is the home route; otherwise there is a route iff the pathname contains '/', and a route never contains '/' |
| NavBar.CurrentRouteIsSecondSegment | components/NavBar.tsx:22 | the route is the text between the first '/' and the next '/' or the end |
| NavBar.SecondSegmentIsUnique | components/NavBar.tsx:22 | that text is unique, so it determines the route |
| NavBar.OtherPages | components/NavBar.tsx:28 | a page is an "other" page iff it is in allPages and not a main page |
| NavBar.OtherPagesExact | components/NavBar.tsx:28 | the other pages keep every non-main page as often as allPages holds it, in allPages order |
| NavBar.AvailableMainPages | components/NavBar.tsx:29 | the available main pages are the main pages other than the current route |
| NavBar.DisplayedPages | components/NavBar.tsx:32-34 | on a main page: the first min(4, n) of the available main pages followed by the other pages, never the current route; elsewhere: all main pages |
| NavBar.ShowMoreButton | components/NavBar.tsx:84 | "More" shows iff some page of allPages is not a main page |
| NavBar.SidebarVisible | components/NavBar.tsx:131 | the sidebar shows iff the menu is open and some page is not a main page |
| NavBar.MobileMenuPages | components/NavBar.tsx:115 | a page is in the mobile menu iff it is displayed in the main navigation or is a non-main page of allPages; off a main page that is every main page and every page of allPages; on a main page the current route is never listed |
| NavBar.Label | components/NavBar.tsx:73 | the label has the page's length, its first letter upper-cased and the rest unchanged |
| NavBar.DesktopHrefIsSlashPage | components/NavBar.tsx:70 | the desktop "home" special case is redundant: every desktop link is "/" followed by the page, as in the sidebar (line 145) |
| NavBar.RouteOfSlashPage | components/NavBar.tsx:22 | following "/" + page makes that page the current route, for a non-empty page name without '/' |
| NavBar.DesktopHref | components/NavBar.tsx:70 | every desktop link starts with '/', and following it makes the page the current route |
| NavBar.MobileHref | components/NavBar.tsx:118 | every mobile link starts with '/', is the root "/" exactly for "home" (and the empty name), and following it makes the page the current route |
| NavBar.SidebarHref | components/NavBar.tsx:145 | every sidebar link starts with '/', and following it makes the page the current route |
| NavBar.HrefsDisagreeOnlyOnHome | components/NavBar.tsx:70-118 | desktop and mobile links differ iff the page is "home" ("/home" against "/") |
| MstWatcher.DirChildren | utils/mstWatcher.ts:40-42 | an entry survives `isDirectory` filtering iff it is a directory entry of the listing |
| MstWatcher.AssignKeys | utils/mstWatcher.ts:44-68 | the keys written by the walk's loop are exactly the names of the entries visited |
| MstWatcher.AssignLastWins | utils/mstWatcher.ts:44-68 | an entry that no later entry shadows keeps the value it was assigned |
| MstWatcher.MissingRootGivesNothing | utils/mstWatcher.ts:32-35 | a missing Modules directory gives no structure |
| MstWatcher.ScanModuleKeys | utils/mstWatcher.ts:40-46 | the module keys are exactly the names of the directory entries of Modules; files never become keys |
| MstWatcher.ScanModuleEntry | utils/mstWatcher.ts:44-68 | each module maps to its subject map, keyed by exactly its subject directories, and to the empty map when it has none |
| MstWatcher.SubjectTopics | utils/mstWatcher.ts:52-67 | each subject maps to the names of its own subdirectories, in listing order, and to no other name |
| MstWatcher.BuildStructure | utils/mstWatcher.ts:30-79 | the two nested loops return exactly the structure of the tree, or nothing when the root is missing or any listing fails |
| MstWatcher.BuildSubjects | utils/mstWatcher.ts:52-68 | the inner loop returns one module's subject-to-topics map, or nothing when a subject cannot be listed |
| MstWatcher.ScanFailsAt | utils/mstWatcher.ts:76-79 | one module or subject directory that cannot be listed fails the whole walk |
| MstWatcher.MSTWatcher.constructor | utils/mstWatcher.ts:14-28 | a new watcher holds no watch handle and uses the given public/mst.json |
| MstWatcher.MSTWatcher.GenerateMSTFile | utils/mstWatcher.ts:30-80 | returns the structure of the tree when the walk and the write succeed, and null otherwise; the shared mst.json changes only on success, to that structure |
| MstWatcher.MSTWatcher.StartWatching | utils/mstWatcher.ts:82-104 | without a Modules directory nothing changes; otherwise mst.json is regenerated once, and then either a fresh, open watch handle is held or, when `fs.watch` cannot be set up (the call throws), the old handle stays |
| MstWatcher.MSTWatcher.StopWatching | utils/mstWatcher.ts:106-112 | afterwards no handle is held and the old one is closed; with no handle nothing changes; mst.json is untouched |
| MstWatcher.MSTWatcher.GetMSTData | utils/mstWatcher.ts:114-125 | returns what the shared mst.json holds, whichever writer wrote it, or null when nothing has been written |
| MstWatcher.SimpleMSTWatcher.GenerateMSTFile | utils/mstWatcher.ts:174-218 | the same contract as the main watcher's generation |
| MstWatcher.WatchersAgree | utils/mstWatcher.ts:174-218 | both watcher classes return the same structure for the same tree, and on success both output files hold it |
| MstWatcher.ReadOtherWatchersWrite | utils/mstWatcher.ts:114-125 | when the two watcher classes share mst.json, what the simple watcher writes is what the main watcher's `getMSTData` returns; a failed write leaves the earlier content |
| MstWatcher.StopTwice | utils/mstWatcher.ts:106-112 | stopping twice leaves no handle and mst.json unchanged |

## Left out

- **Rendering.** JSX rendering, React state and effects (`useState`, `useEffect`, `useMemo`, mounting, closing the menu on a route change), animations, icons, tooltips and CSS are not part of this model.
- **Date handling.**
  - `Date` parsing, `toISOString` and time zones become integers supplied by the caller.
  - The `'2026-6-31'` end date of the tracker is a caller-supplied day number.
  - The local-midnight and week-ago computations of the statistics panel are parameters.
- DailyTracker.GenerateHeatmapData, DailyTracker.TodayIsLastPastEntry: the model dates the cells by consecutive day numbers. The source's cells can differ in three steps.
  - It starts at UTC midnight (`new Date('2025-10-01')`) and steps with `setDate(getDate() + 1)`, which keeps the local time of day across a daylight-saving change.
  - It labels each cell with the UTC date from `toISOString`.
  - So in a time zone with daylight saving (Australia/Sydney, for example) one UTC date is emitted twice at one transition and one is skipped at the other.
  - Between those transitions, the cell labelled with today's UTC date carries an instant later than `today` for part of the day. Its count is then forced to 0, and the current streak is 0.
  - The one-cell-per-day and today-is-the-last-past-entry properties hold for the model's day numbers. They do not hold for the source in every time zone.
- **The heatmap draw.** The random count is a nondeterministic choice in 0..10. The 60/40 probability split is not modelled.
- DailyTracker.CalculateStats: the average is an exact quotient, not a floating-point division, and `toFixed(1)` formatting is not modelled.
- **Case mapping.** `toLowerCase` and `toUpperCase` are modelled for ASCII letters only. Full Unicode case mapping is not modelled.
- SessionList.NotesPreview, NavBar.Label: the model counts Unicode code points, where JavaScript's `length`, `slice` and `charAt` count UTF-16 code units. For text with characters outside the Basic Multilingual Plane (emoji, for example), the source cuts and counts differently. It may split a surrogate pair and add "..." where the model shows the notes whole.
- SessionList.SortByStartDesc: it does not state that equal start times keep their filtered order (JavaScript's sort is stable). Its comparator `b.start - a.start` is modelled as exact integer comparison.
- **The time filter.** `parseInt` of the time-filter value is not modelled. The window is `AllTime` or `LastDays(n)`, matching the three options of the select.
- **Session list formatting.** `formatTime` and `toLocaleString` are left out.
- **Filesystem calls.** The `existsSync` checks inside the walk (`continue` when a listed directory has vanished) are left out. In a tree value a listed entry always exists; a concurrent deletion is not modelled.
- **JSON handling.** JSON serialisation and parsing are not modelled. A corrupt `mst.json` is not modelled either; `getMSTData` returns the content of the shared file object.
- **The generate-mst API route.** `app/(logined-users)/api/generate-mst/route.ts` also writes `public/mst.json`. It is not part of this model. A write by it would be a further update of the same `OutputFile` content.
- **Partial writes.** A write that fails part-way is not modelled; it is a single success flag.
- MstWatcher.ScanModuleKeys, MstWatcher.SubjectTopics: a Dafny map stands for the plain JavaScript object the source fills in. A module or subject directory named `__proto__` is kept by the model as an ordinary key. The source's assignment to that name instead replaces the object's prototype and creates no own key, so the source drops it from the returned structure and from mst.json.
- MstWatcher.BuildStructure: the source first stores an empty map for a module and then fills it in. The model stores only the filled-in map. A failed walk discards the whole structure, so the difference cannot be observed.
- **Watcher plumbing.**
  - The 1-second debounce, the `fs.watch` callback and timers are left out.
  - `initializeAutoWatcher` and its SIGINT handler are left out.
  - The `getMSTStructure` and `regenerateMST` wrappers delegate to the modelled methods and are left out.
  - Console logging is left out.
- **Integer width.** Durations and counts are unbounded integers. JavaScript numbers are doubles, and their rounding on huge values is not modelled.

=== FILE: daily_tracker.dfy ===
/** The study heatmap of the profile page: dummy data over a date range,
    the streak statistics computed from it, and the colour bucket of a cell.
    Dates are whole day numbers; `today` is the day number of the current date. */
module DailyTracker {
  import opened Wrappers
  import opened Seqs

  /** One heatmap cell: a day and the number of questions answered on it. */
  datatype DayEntry = DayEntry(date: int, count: int)

  predicate Active(e: DayEntry) { e.count > 0 }

  // ---------------------------------------------------------------------------
  // Specification functions for the statistics

  /** The entries that take part in the statistics: those dated on or before today. */
  function PastData(data: seq<DayEntry>, today: int): (r: seq<DayEntry>)
    ensures forall e :: e in r <==> e in data && e.date <= today
  {
    Filter(data, OnOrBefore(today))
  }

  function OnOrBefore(today: int): DayEntry -> bool
  {
    (e: DayEntry) => e.date <= today
  }

  /** The first entry dated `day`, as `Array.prototype.find` returns it. */
  function FindDate(s: seq<DayEntry>, day: int): (r: Option<DayEntry>)
    ensures r.None? <==> forall k :: 0 <= k < |s| ==> s[k].date != day
    ensures r.Some? ==> exists k :: FirstDatedAt(s, day, k) && s[k] == r.value
  {
    if s == [] then None
    else if s[0].date == day then
      assert FirstDatedAt(s, day, 0);
      Some(s[0])
    else
      var r := FindDate(s[1..], day);
      if r.Some? then
        var k :| FirstDatedAt(s[1..], day, k) && s[1..][k] == r.value;
        assert FirstDatedAt(s, day, k + 1);
        r
      else r
  }

  /** `s[k]` is the first entry of `s` dated `day`. */
  predicate FirstDatedAt(s: seq<DayEntry>, day: int, k: int)
  {
    0 <= k < |s| && s[k].date == day && forall j :: 0 <= j < k ==> s[j].date != day
  }

  /** Number of active entries at the end of `s`, counted back until the first inactive one. */
  function TrailingActive(s: seq<DayEntry>): nat
  {
    if s == [] || !Active(s[|s| - 1]) then 0 else TrailingActive(s[..|s| - 1]) + 1
  }

  /** Every entry of `s[i..j]` is active. */
  predicate ActiveRun(s: seq<DayEntry>, i: int, j: int)
    requires 0 <= i <= j <= |s|
  {
    forall k :: i <= k < j ==> Active(s[k])
  }

  /** `s` has an active run of length `n` starting at `i`. */
  predicate RunAt(s: seq<DayEntry>, i: int, n: nat)
  {
    0 <= i && i + n <= |s| && ActiveRun(s, i, i + n)
  }

  /** Length of the longest run of consecutive active entries. */
  function LongestRun(s: seq<DayEntry>): nat
  {
    if s == [] then 0
    else
      var before := LongestRun(s[..|s| - 1]);
      var ending := TrailingActive(s);
      if before < ending then ending else before
  }

  function TotalCount(s: seq<DayEntry>): int
  {
    if s == [] then 0 else TotalCount(s[..|s| - 1]) + s[|s| - 1].count
  }

  /** The current-streak rule: today's entry must exist and be active. */
  predicate TodayActive(past: seq<DayEntry>, today: int)
  {
    var t := FindDate(past, today); t.Some? && Active(t.value)
  }

  /** The average questions per past day, as an exact quotient. */
  datatype Average = NoData | Mean(total: int, days: nat)

  /** What `calculateStats` returns; the question total is only kept inside the average. */
  datatype TrackerStats = TrackerStats(currentStreak: nat, longestStreak: nat, avgQuestions: Average, avgScore: int)

  /** The fixed placeholder average score. */
  const DummyAvgScore := 78

  // ---------------------------------------------------------------------------
  // Properties of the specification functions

  /** TrailingActive is the length of the longest all-active suffix. */
  lemma {:induction false} TrailingActiveIsLongestActiveSuffix(s: seq<DayEntry>)
    ensures TrailingActive(s) <= |s|
    ensures ActiveRun(s, |s| - TrailingActive(s), |s|)
    ensures TrailingActive(s) < |s| ==> !Active(s[|s| - TrailingActive(s) - 1])
  {
    if s != [] && Active(s[|s| - 1]) {
      var init := s[..|s| - 1];
      TrailingActiveIsLongestActiveSuffix(init);
      assert forall k :: |init| - TrailingActive(init) <= k < |init| ==> s[k] == init[k];
    }
  }

  /** An active run ending at the last entry is no longer than TrailingActive. */
  lemma {:induction false} RunEndingAtLastIsBounded(s: seq<DayEntry>, i: int)
    requires 0 <= i <= |s| && ActiveRun(s, i, |s|)
    ensures |s| - i <= TrailingActive(s)
  {
    if i < |s| {
      var init := s[..|s| - 1];
      assert ActiveRun(init, i, |init|) by {
        assert forall k :: i <= k < |init| ==> init[k] == s[k];
      }
      RunEndingAtLastIsBounded(init, i);
    }
  }

  /** LongestRun is attained by some active run, and no active run is longer. */
  lemma {:induction false} LongestRunIsMaximal(s: seq<DayEntry>)
    ensures exists i :: RunAt(s, i, LongestRun(s))
    ensures forall i, j :: 0 <= i <= j <= |s| && ActiveRun(s, i, j) ==> j - i <= LongestRun(s)
  {
    if s == [] {
      assert LongestRun(s) == 0 && RunAt(s, 0, 0);
    } else {
      var init := s[..|s| - 1];
      LongestRunIsMaximal(init);
      TrailingActiveIsLongestActiveSuffix(s);
      if LongestRun(init) < TrailingActive(s) {
        assert RunAt(s, |s| - LongestRun(s), LongestRun(s));
      } else {
        var i :| RunAt(init, i, LongestRun(init));
        assert RunAt(s, i, LongestRun(s)) by {
          assert forall k :: i <= k < i + LongestRun(init) ==> init[k] == s[k];
        }
      }
      forall i, j | 0 <= i <= j <= |s| && ActiveRun(s, i, j) ensures j - i <= LongestRun(s) {
        if j == |s| {
          RunEndingAtLastIsBounded(s, i);
        } else {
          assert ActiveRun(init, i, j) by {
            assert forall k :: i <= k < j ==> init[k] == s[k];
          }
        }
      }
    }
  }

  /** The current streak never exceeds the longest streak. */
  lemma TrailingActiveAtMostLongestRun(s: seq<DayEntry>)
    ensures TrailingActive(s) <= LongestRun(s)
  {
  }

  // ---------------------------------------------------------------------------
  // calculateStats

  /** How each specification function grows by one more entry. */
  lemma PrefixStep(s: seq<DayEntry>, i: int)
    requires 0 <= i < |s|
    ensures TrailingActive(s[..i + 1]) == if Active(s[i]) then TrailingActive(s[..i]) + 1 else 0
    ensures TotalCount(s[..i + 1]) == TotalCount(s[..i]) + s[i].count
    ensures LongestRun(s[..i + 1]) ==
      var b := LongestRun(s[..i]); var e := TrailingActive(s[..i + 1]); if b < e then e else b
  {
    assert s[..i + 1][..i] == s[..i];
  }

  /** The current streak: when today's entry is active, the entries are counted
      backwards from the last past one until an inactive entry breaks the streak. */
  method CurrentStreak(pastData: seq<DayEntry>, today: int) returns (currentStreak: nat)
    ensures currentStreak == if TodayActive(pastData, today) then TrailingActive(pastData) else 0
  {
    currentStreak := 0;
    var todayData := FindDate(pastData, today);
    if todayData.Some? && todayData.value.count > 0 {
      var i := |pastData| - 1;
      assert pastData[..i + 1] == pastData;
      while i >= 0
        invariant -1 <= i < |pastData|
        invariant TrailingActive(pastData) == currentStreak + TrailingActive(pastData[..i + 1])
      {
        PrefixStep(pastData, i);
        if pastData[i].count > 0 {
          currentStreak := currentStreak + 1;
        } else {
          break;
        }
        i := i - 1;
      }
    }
  }

  /** The longest streak and the question total in one forward pass: a running
      counter grows on active days and is folded into the longest streak when an
      inactive day ends it, and once more after the last day. */
  method LongestStreakAndTotal(pastData: seq<DayEntry>) returns (longestStreak: nat, totalQuestions: int)
    ensures longestStreak == LongestRun(pastData)
    ensures totalQuestions == TotalCount(pastData)
  {
    longestStreak, totalQuestions := 0, 0;
    var tempStreak: nat := 0;
    for j := 0 to |pastData|
      invariant totalQuestions == TotalCount(pastData[..j])
      invariant tempStreak == TrailingActive(pastData[..j])
      invariant (if longestStreak < tempStreak then tempStreak else longestStreak) == LongestRun(pastData[..j])
    {
      PrefixStep(pastData, j);
      var day := pastData[j];
      totalQuestions := totalQuestions + day.count;
      if day.count > 0 {
        tempStreak := tempStreak + 1;
      } else {
        if tempStreak > longestStreak {
          longestStreak := tempStreak;
        }
        tempStreak := 0;
      }
    }
    if tempStreak > longestStreak {
      longestStreak := tempStreak;
    }
    assert pastData[..|pastData|] == pastData;
  }

  /** Streaks and average over the entries dated up to today. */
  method CalculateStats(data: seq<DayEntry>, today: int) returns (stats: TrackerStats)
    ensures var past := PastData(data, today);
      && stats.currentStreak == (if TodayActive(past, today) then TrailingActive(past) else 0)
      && stats.longestStreak == LongestRun(past)
      && stats.avgQuestions == (if |past| > 0 then Mean(TotalCount(past), |past|) else NoData)
      && stats.avgScore == DummyAvgScore
    ensures stats.currentStreak <= stats.longestStreak
  {
    var pastData := PastData(data, today);
    var currentStreak := CurrentStreak(pastData, today);
    var longestStreak, totalQuestions := LongestStreakAndTotal(pastData);
    TrailingActiveAtMostLongestRun(pastData);
    var avgQuestions := if |pastData| > 0 then Mean(totalQuestions, |pastData|) else NoData;
    stats := TrackerStats(currentStreak, longestStreak, avgQuestions, DummyAvgScore);
  }

  // ---------------------------------------------------------------------------
  // generateHeatmapData

  /** One entry per day from `startDay` to `endDay` inclusive. Each day up to
      today gets a random count (0, or 1 to 10), modelled as an arbitrary
      choice in 0..10; later days get 0. */
  method GenerateHeatmapData(startDay: int, endDay: int, today: int) returns (data: seq<DayEntry>)
    ensures |data| == if startDay <= endDay then endDay - startDay + 1 else 0
    ensures forall k :: 0 <= k < |data| ==> data[k].date == startDay + k
    ensures forall k :: 0 <= k < |data| && data[k].date > today ==> data[k].count == 0
    ensures forall k :: 0 <= k < |data| ==> 0 <= data[k].count <= 10
  {
    data := [];
    var currentDate := startDay;
    while currentDate <= endDay
      invariant currentDate == startDay + |data|
      invariant |data| == 0 || currentDate <= endDay + 1
      invariant forall k :: 0 <= k < |data| ==> data[k].date == startDay + k
      invariant forall k :: 0 <= k < |data| && data[k].date > today ==> data[k].count == 0
      invariant forall k :: 0 <= k < |data| ==> 0 <= data[k].count <= 10
      decreases endDay - currentDate
    {
      var count := 0;
      if currentDate <= today {
        count :| 0 <= count <= 10;
      }
      data := data + [DayEntry(currentDate, count)];
      currentDate := currentDate + 1;
    }
  }

  /** Entries dated consecutively from `start`, as the heatmap generator makes them. */
  predicate Consecutive(data: seq<DayEntry>, start: int)
  {
    forall k :: 0 <= k < |data| ==> data[k].date == start + k
  }

  /** How many entries of consecutive data starting at `start` are dated on or before `today`. */
  function PastLength(n: nat, start: int, today: int): nat
  {
    if today < start then 0 else if today - start + 1 < n then today - start + 1 else n
  }

  /** On consecutive data the past entries are a prefix. */
  lemma {:induction false} PastOfConsecutiveIsPrefix(data: seq<DayEntry>, start: int, today: int)
    requires Consecutive(data, start)
    ensures PastData(data, today) == data[..PastLength(|data|, start, today)]
    decreases |data|
  {
    if data != [] {
      var tail := data[1..];
      assert Consecutive(tail, start + 1);
      PastOfConsecutiveIsPrefix(tail, start + 1, today);
      var m := PastLength(|tail|, start + 1, today);
      if data[0].date <= today {
        assert PastLength(|data|, start, today) == m + 1;
        assert data[..m + 1] == [data[0]] + tail[..m];
      }
    }
  }

  /** When today lies in the range of consecutive data, the last past entry is
      today's own entry, so the current streak counts back from today itself. */
  lemma TodayIsLastPastEntry(data: seq<DayEntry>, start: int, today: int)
    requires Consecutive(data, start)
    requires start <= today < start + |data|
    ensures var past := PastData(data, today);
      |past| > 0 && FindDate(past, today) == Some(past[|past| - 1]) && past[|past| - 1].date == today
  {
    PastOfConsecutiveIsPrefix(data, start, today);
    var past := PastData(data, today);
    var n := today - start + 1;
    assert past == data[..n];
    assert past[n - 1].date == today;
    forall k | FirstDatedAt(past, today, k) ensures k == n - 1 {
      assert past[k] == data[k];
    }
  }

  // ---------------------------------------------------------------------------
  // classForValue

  /** The colour buckets of the calendar heatmap. */
  datatype HeatClass = ColorEmpty | ColorScale1 | ColorScale2 | ColorScale3 | ColorScale4
  {
    /** The CSS class name of the bucket. */
    function CssName(): string
    {
      match this
      case ColorEmpty => "color-empty"
      case ColorScale1 => "color-scale-1"
      case ColorScale2 => "color-scale-2"
      case ColorScale3 => "color-scale-3"
      case ColorScale4 => "color-scale-4"
    }

    /** Position of the bucket on the colour scale. */
    function Level(): nat
    {
      match this
      case ColorEmpty => 0
      case ColorScale1 => 1
      case ColorScale2 => 2
      case ColorScale3 => 3
      case ColorScale4 => 4
    }
  }

  /** The bucket of a heatmap cell, or of a day the calendar has no value for. */
  function ClassForValue(value: Option<DayEntry>): (c: HeatClass)
    ensures c == ColorEmpty <==> value.None? || value.value.count == 0
    ensures value.Some? && value.value.count != 0 && value.value.count <= 2 ==> c == ColorScale1
    ensures value.Some? && 3 <= value.value.count <= 5 ==> c == ColorScale2
    ensures value.Some? && 6 <= value.value.count <= 8 ==> c == ColorScale3
    ensures value.Some? && value.value.count > 8 ==> c == ColorScale4
  {
    if value.None? || value.value.count == 0 then ColorEmpty
    else if value.value.count > 8 then ColorScale4
    else if value.value.count > 5 then ColorScale3
    else if value.value.count > 2 then ColorScale2
    else ColorScale1
  }

  /** A larger non-negative count never gets a lighter bucket. */
  lemma ClassForValueMonotone(day: int, a: int, b: int)
    requires 0 <= a <= b
    ensures ClassForValue(Some(DayEntry(day, a))).Level() <= ClassForValue(Some(DayEntry(day, b))).Level()
  {
  }
}

=== FILE: mst_watcher.dfy ===
/** The Module/Subject/Topic structure builder behind mst.json. The
    filesystem under the Modules directory is a tree value; a directory whose
    listing cannot be read stands for a `readdirSync` that throws. */
module MstWatcher {
  import opened Wrappers
  import opened Seqs

  /** A directory entry: a directory with its entries (`readable` is false when
      listing it fails), or any other kind of entry (file, link, ...). */
  datatype Node = Dir(name: string, readable: bool, entries: seq<Node>) | Other(name: string)

  type TopicStructure = map<string, seq<string>>
  type ModuleStructure = map<string, TopicStructure>

  function IsDirectory(e: Node): bool { e.Dir? }

  /** The directory entries of a listing, in listing order. */
  function DirChildren(entries: seq<Node>): (r: seq<Node>)
    ensures forall e :: e in r <==> e in entries && e.Dir?
  {
    Filter(entries, IsDirectory)
  }

  function Names(entries: seq<Node>): (r: seq<string>)
    ensures |r| == |entries|
    ensures forall k :: 0 <= k < |entries| ==> r[k] == entries[k].name
  {
    seq(|entries|, k requires 0 <= k < |entries| => entries[k].name)
  }

  /** `filter(dirent => dirent.isDirectory()).map(dirent => dirent.name)`. */
  function DirNames(entries: seq<Node>): seq<string>
  {
    Names(DirChildren(entries))
  }

  /** A directory whose listing can be read. */
  predicate Listed(n: Node) { n.Dir? && n.readable }

  function Listing(n: Node): seq<Node> { if Listed(n) then n.entries else [] }

  /** `m[e.name] = value(e)` for each entry in turn: a later entry with the same name wins. */
  function Assign<V>(entries: seq<Node>, value: Node -> V): map<string, V>
  {
    if entries == [] then map[]
    else
      var last := entries[|entries| - 1];
      Assign(entries[..|entries| - 1], value)[last.name := value(last)]
  }

  /** The topic list of one subject directory. */
  function TopicsOf(subject: Node): seq<string> { DirNames(Listing(subject)) }

  /** The subject map of one module directory. */
  function SubjectsOf(moduleDir: Node): TopicStructure { Assign(DirChildren(Listing(moduleDir)), TopicsOf) }

  /** Every subject directory of the module can be listed. */
  predicate SubjectsListed(moduleDir: Node)
  {
    AllListed(DirChildren(Listing(moduleDir)))
  }

  predicate AllListed(dirs: seq<Node>)
  {
    forall k :: 0 <= k < |dirs| ==> Listed(dirs[k])
  }

  /** Every module directory, and every subject directory in it, can be listed. */
  predicate ModulesListed(modules: seq<Node>)
  {
    forall k :: 0 <= k < |modules| ==> Listed(modules[k]) && SubjectsListed(modules[k])
  }

  /** The structure the walk produces for the Modules directory `root`
      (`None` when it does not exist), or `None` when any listing fails. */
  function Scan(root: Option<Node>): Option<ModuleStructure>
  {
    if root.None? || !Listed(root.value) then None
    else
      var modules := DirChildren(Listing(root.value));
      if ModulesListed(modules) then Some(Assign(modules, SubjectsOf)) else None
  }

  // ---------------------------------------------------------------------------
  // What the structure contains

  /** The keys are exactly the names of the entries. */
  lemma {:induction false} AssignKeys<V>(entries: seq<Node>, value: Node -> V)
    ensures forall n :: n in Assign(entries, value) <==> exists e :: e in entries && e.name == n
  {
    if entries != [] {
      var init := entries[..|entries| - 1];
      AssignKeys(init, value);
      assert entries == init + [entries[|entries| - 1]];
    }
  }

  /** An entry that no later entry shadows keeps its own value. */
  lemma {:induction false} AssignLastWins<V>(entries: seq<Node>, value: Node -> V, k: int)
    requires 0 <= k < |entries|
    requires forall j :: k < j < |entries| ==> entries[j].name != entries[k].name
    ensures entries[k].name in Assign(entries, value)
    ensures Assign(entries, value)[entries[k].name] == value(entries[k])
  {
    if k < |entries| - 1 {
      AssignLastWins(entries[..|entries| - 1], value, k);
    }
  }

  /** A missing Modules directory gives no structure. */
  lemma MissingRootGivesNothing()
    ensures Scan(None) == None
  {
  }

  /** The module keys are exactly the names of the directory entries of the root:
      an entry that is not a directory never becomes a key of its own. */
  lemma ScanModuleKeys(root: Node)
    requires Scan(Some(root)).Some?
    ensures forall n :: n in Scan(Some(root)).value <==> exists e :: e in Listing(root) && e.Dir? && e.name == n
  {
    AssignKeys(DirChildren(Listing(root)), SubjectsOf);
  }

  /** Each module maps to its subject directories, each subject to the names of
      its own directory entries; a module without subject directories maps to
      the empty map. */
  lemma ScanModuleEntry(root: Node, k: int)
    requires Scan(Some(root)).Some?
    requires 0 <= k < |DirChildren(Listing(root))|
    requires forall j :: k < j < |DirChildren(Listing(root))| ==>
      DirChildren(Listing(root))[j].name != DirChildren(Listing(root))[k].name
    ensures var moduleDir := DirChildren(Listing(root))[k];
      && moduleDir.name in Scan(Some(root)).value
      && Scan(Some(root)).value[moduleDir.name] == SubjectsOf(moduleDir)
      && (DirChildren(Listing(moduleDir)) == [] ==> Scan(Some(root)).value[moduleDir.name] == map[])
      && (forall n :: n in SubjectsOf(moduleDir) <==> exists e :: e in Listing(moduleDir) && e.Dir? && e.name == n)
  {
    var modules := DirChildren(Listing(root));
    AssignLastWins(modules, SubjectsOf, k);
    AssignKeys(DirChildren(Listing(modules[k])), TopicsOf);
  }

  /** The topic list of a subject is the names of its directory entries, in listing order. */
  lemma SubjectTopics(moduleDir: Node, k: int)
    requires 0 <= k < |DirChildren(Listing(moduleDir))|
    requires forall j :: k < j < |DirChildren(Listing(moduleDir))| ==>
      DirChildren(Listing(moduleDir))[j].name != DirChildren(Listing(moduleDir))[k].name
    ensures var subject := DirChildren(Listing(moduleDir))[k];
      && subject.name in SubjectsOf(moduleDir)
      && SubjectsOf(moduleDir)[subject.name] == Names(DirChildren(Listing(subject)))
      && forall n :: n in SubjectsOf(moduleDir)[subject.name] <==> exists e :: e in Listing(subject) && e.Dir? && e.name == n
  {
    var subjects := DirChildren(Listing(moduleDir));
    AssignLastWins(subjects, TopicsOf, k);
    var topics := DirChildren(Listing(subjects[k]));
    forall n ensures n in Names(topics) <==> exists e :: e in topics && e.name == n {
      if n in Names(topics) {
        var i :| 0 <= i < |topics| && Names(topics)[i] == n;
        assert topics[i] in topics;
      }
      if e :| e in topics && e.name == n {
        var i :| 0 <= i < |topics| && topics[i] == e;
        assert Names(topics)[i] == n;
      }
    }
  }

  // ---------------------------------------------------------------------------
  // The walk

  /** Assigning one more entry. */
  lemma AssignStep<V>(entries: seq<Node>, value: Node -> V, j: int)
    requires 0 <= j < |entries|
    ensures Assign(entries[..j + 1], value) == Assign(entries[..j], value)[entries[j].name := value(entries[j])]
  {
    assert entries[..j + 1][..j] == entries[..j];
  }

  /** The walk of `generateMSTFile`: every module directory maps to the topic
      lists of its subject directories (an empty map when it has none); any
      listing that fails ends the walk with no structure. The source stores the
      empty map before it fills it in; a failed walk discards the structure,
      so only the filled-in map is ever observable. */
  method BuildStructure(root: Option<Node>) returns (r: Option<ModuleStructure>)
    ensures r == Scan(root)
  {
    if root.None? {
      return None;
    }
    var modulesDir := root.value;
    if !Listed(modulesDir) {
      return None;
    }

    var structure: ModuleStructure := map[];
    var modules := DirChildren(modulesDir.entries);
    for i := 0 to |modules|
      invariant structure == Assign(modules[..i], SubjectsOf)
      invariant ModulesListed(modules[..i])
    {
      AssignStep(modules, SubjectsOf, i);
      var moduleDir := modules[i];
      if !Listed(moduleDir) {
        ScanFailsAt(modulesDir, i);
        return None;
      }
      var subjects := BuildSubjects(moduleDir);
      if subjects.None? {
        ScanFailsAt(modulesDir, i);
        return None;
      }
      ModulesListedStep(modules, i);
      structure := structure[moduleDir.name := subjects.value];
    }
    assert modules[..|modules|] == modules;
    return Some(structure);
  }

  /** The inner level of the walk: `structure[module][subject] = topics` for each
      subject directory of one module, or `None` when a subject cannot be listed. */
  method BuildSubjects(moduleDir: Node) returns (r: Option<TopicStructure>)
    requires Listed(moduleDir)
    ensures r == if SubjectsListed(moduleDir) then Some(SubjectsOf(moduleDir)) else None
  {
    var topicMap: TopicStructure := map[];
    var subjects := DirChildren(Listing(moduleDir));
    for j := 0 to |subjects|
      invariant topicMap == Assign(subjects[..j], TopicsOf)
      invariant AllListed(subjects[..j])
    {
      AssignStep(subjects, TopicsOf, j);
      var subject := subjects[j];
      if !Listed(subject) {
        return None;
      }
      AllListedStep(subjects, j);
      var topics := DirNames(Listing(subject));
      topicMap := topicMap[subject.name := topics];
    }
    assert subjects[..|subjects|] == subjects;
    return Some(topicMap);
  }

  lemma AllListedStep(dirs: seq<Node>, j: int)
    requires 0 <= j < |dirs| && AllListed(dirs[..j]) && Listed(dirs[j])
    ensures AllListed(dirs[..j + 1])
  {
  }

  /** One module or subject directory that cannot be listed fails the whole walk. */
  lemma ScanFailsAt(root: Node, i: int)
    requires Listed(root)
    requires 0 <= i < |DirChildren(root.entries)|
    requires !(Listed(DirChildren(root.entries)[i]) && SubjectsListed(DirChildren(root.entries)[i]))
    ensures Scan(Some(root)) == None
  {
  }

  lemma ModulesListedStep(modules: seq<Node>, i: int)
    requires 0 <= i < |modules| && ModulesListed(modules[..i])
    requires Listed(modules[i]) && SubjectsListed(modules[i])
    ensures ModulesListed(modules[..i + 1])
  {
  }

  // ---------------------------------------------------------------------------
  // The watchers

  /** An `fs.watch` handle. */
  class DirWatch {
    var open: bool

    constructor ()
      ensures open
    {
      open := true;
    }

    method Close()
      modifies this
      ensures !open
    {
      open := false;
    }
  }

  /** The file public/mst.json: one object shared by every watcher that writes
      or reads it. `content` is `None` while no structure has been written. */
  class OutputFile {
    var content: Option<ModuleStructure>

    constructor (existing: Option<ModuleStructure>)
      ensures content == existing
    {
      content := existing;
    }
  }

  /** The watcher with the debounced regeneration; `writeSucceeds` says
      whether `writeFileSync` succeeds. */
  class MSTWatcher {
    var watcher: DirWatch?
    const output: OutputFile

    constructor (output: OutputFile)
      ensures watcher == null && this.output == output
    {
      watcher := null;
      this.output := output;
    }

    /** Builds the structure, writes it and returns it; returns `None` and
        writes nothing when the walk or the write fails. */
    method GenerateMSTFile(root: Option<Node>, writeSucceeds: bool) returns (r: Option<ModuleStructure>)
      modifies output
      ensures r == (if writeSucceeds then Scan(root) else None)
      ensures output.content == if r.Some? then r else old(output.content)
    {
      var structure := BuildStructure(root);
      if structure.None? || !writeSucceeds {
        return None;
      }
      output.content := structure;
      return structure;
    }

    /** When the Modules directory exists: regenerate once, then set up the watch.
        `watchSucceeds` says whether `fs.watch` can set it up; when it cannot,
        the call throws (reported here as `started == false`) after mst.json
        has been regenerated, and the old handle stays. */
    method StartWatching(root: Option<Node>, writeSucceeds: bool, watchSucceeds: bool) returns (started: bool)
      modifies this, output
      ensures started <==> root.Some? && watchSucceeds
      ensures root.None? ==> watcher == old(watcher) && output.content == old(output.content)
      ensures root.Some? && !watchSucceeds ==> watcher == old(watcher)
      ensures started ==> watcher != null && fresh(watcher) && watcher.open
      ensures root.Some? ==>
        output.content == if writeSucceeds && Scan(root).Some? then Scan(root) else old(output.content)
    {
      if root.None? {
        return false;
      }
      var _ := GenerateMSTFile(root, writeSucceeds);
      if !watchSucceeds {
        return false;
      }
      watcher := new DirWatch();
      return true;
    }

    /** Closes and forgets the watch handle; with no handle it does nothing. */
    method StopWatching()
      modifies this, watcher
      ensures watcher == null
      ensures unchanged(output)
      ensures old(watcher) != null ==> !old(watcher).open
      ensures old(watcher) == null ==> unchanged(this)
    {
      if watcher != null {
        watcher.Close();
        watcher := null;
      }
    }

    /** What public/mst.json holds, whoever wrote it; `None` when nothing has been written. */
    method GetMSTData() returns (r: Option<ModuleStructure>)
      ensures r == output.content
    {
      r := output.content;
    }
  }

  /** The watcher variant without lodash; its generation is the same walk. */
  class SimpleMSTWatcher {
    const output: OutputFile

    constructor (output: OutputFile)
      ensures this.output == output
    {
      this.output := output;
    }

    method GenerateMSTFile(root: Option<Node>, writeSucceeds: bool) returns (r: Option<ModuleStructure>)
      modifies output
      ensures r == (if writeSucceeds then Scan(root) else None)
      ensures output.content == if r.Some? then r else old(output.content)
    {
      var structure := BuildStructure(root);
      if structure.None? || !writeSucceeds {
        return None;
      }
      output.content := structure;
      return structure;
    }
  }

  /** Both watchers return the same structure for the same tree, and when it is
      written, both output files hold it. */
  method WatchersAgree(a: MSTWatcher, b: SimpleMSTWatcher, root: Option<Node>, writeSucceeds: bool)
    returns (ra: Option<ModuleStructure>, rb: Option<ModuleStructure>)
    modifies a.output, b.output
    ensures ra == rb
    ensures ra.Some? ==> a.output.content == ra && b.output.content == ra
  {
    ra := a.GenerateMSTFile(root, writeSucceeds);
    rb := b.GenerateMSTFile(root, writeSucceeds);
  }

  /** Writers share the file: after the simple watcher writes a structure, the
      main watcher reads that structure back. */
  method ReadOtherWatchersWrite(a: MSTWatcher, b: SimpleMSTWatcher, root: Option<Node>, writeSucceeds: bool)
    returns (written: Option<ModuleStructure>, read: Option<ModuleStructure>)
    requires a.output == b.output
    modifies b.output
    ensures written.Some? ==> read == written
    ensures written.None? ==> read == old(a.output.content)
  {
    written := b.GenerateMSTFile(root, writeSucceeds);
    read := a.GetMSTData();
  }

  /** A second stop changes nothing. */
  method StopTwice(w: MSTWatcher)
    modifies w, w.watcher
    ensures w.watcher == null && unchanged(w.output)
  {
    w.StopWatching();
    w.StopWatching();
  }
}

=== FILE: nav_bar.dfy ===
/** The navigation bar: which route is current, which pages appear in the
    main navigation, under "More" and in the mobile menu, and the label and
    link of each page. `mainPages` is the list read from pages.json. */
module NavBar {
  import opened Wrappers
  import opened Seqs
  import opened Text

  // ---------------------------------------------------------------------------
  // currentRoute

  /** `s.split(sep)`: the pieces between separators, always at least one. */
  function Split(s: string, sep: char): (parts: seq<string>)
    ensures |parts| >= 1
    ensures forall i :: 0 <= i < |parts| ==> sep !in parts[i]
  {
    if s == [] then [""]
    else
      var rest := Split(s[1..], sep);
      if s[0] == sep then [""] + rest
      else [[s[0]] + rest[0]] + rest[1..]
  }

  /** There is one more piece than there are separators. */
  lemma {:induction false} SplitCount(s: string, sep: char)
    ensures |Split(s, sep)| == multiset(s)[sep] + 1
  {
    if s != [] {
      SplitCount(s[1..], sep);
      assert s == [s[0]] + s[1..];
    }
  }

  /** `parts.join(sep)`. */
  function Join(parts: seq<string>, sep: char): string
    requires |parts| >= 1
  {
    if |parts| == 1 then parts[0] else parts[0] + [sep] + Join(parts[1..], sep)
  }

  /** Splitting loses nothing: joining the pieces gives the string back. */
  lemma {:induction false} JoinSplit(s: string, sep: char)
    ensures Join(Split(s, sep), sep) == s
  {
    if s != [] {
      var rest := Split(s[1..], sep);
      JoinSplit(s[1..], sep);
      if s[0] != sep {
        var parts := [[s[0]] + rest[0]] + rest[1..];
        if |rest| > 1 {
          assert parts[1..] == rest[1..];
        }
      }
    }
  }

  /** `pathname === '/' ? 'home' : pathname.split('/')[1]`; the index is
      `undefined` when the pathname has no '/' at all. */
  function CurrentRoute(pathname: string): (r: Option<string>)
    ensures pathname == "/" ==> r == Some("home")
    ensures pathname != "/" ==> (r.None? <==> '/' !in pathname)
    ensures r.Some? ==> '/' !in r.value
  {
    if pathname == "/" then Some("home")
    else
      var parts := Split(pathname, '/');
      SplitCount(pathname, '/');
      if |parts| > 1 then Some(parts[1]) else None
  }

  /** `r` is the text between the first '/' of `p` (at index `i`) and the next '/' or the end. */
  predicate SecondSegment(p: string, r: string, i: int)
  {
    && 0 <= i && i + 1 + |r| <= |p|
    && '/' !in p[..i] && p[i] == '/'
    && p[i + 1..i + 1 + |r|] == r && '/' !in r
    && (i + 1 + |r| == |p| || p[i + 1 + |r|] == '/')
  }

  /** The current route is the segment after the first '/'. */
  lemma CurrentRouteIsSecondSegment(pathname: string)
    requires pathname != "/" && '/' in pathname
    ensures CurrentRoute(pathname).Some?
    ensures SecondSegment(pathname, CurrentRoute(pathname).value, |Split(pathname, '/')[0]|)
  {
    var parts := Split(pathname, '/');
    SplitCount(pathname, '/');
    JoinSplit(pathname, '/');
    var more := JoinFirstTwo(parts, '/');
    SegmentOfConcat(parts[0], parts[1], more);
  }

  /** A join of two or more pieces starts with the first two and the separator between them. */
  lemma JoinFirstTwo(parts: seq<string>, sep: char) returns (more: string)
    requires |parts| >= 2
    ensures Join(parts, sep) == parts[0] + [sep] + parts[1] + more
    ensures more == [] || more[0] == sep
  {
    var tail := parts[1..];
    assert tail[0] == parts[1];
    if |parts| > 2 {
      assert tail[1..] == parts[2..];
      more := [sep] + Join(parts[2..], sep);
    } else {
      more := [];
    }
  }

  lemma SegmentOfConcat(head: string, r: string, more: string)
    requires '/' !in head && '/' !in r
    requires more == "" || more[0] == '/'
    ensures SecondSegment(head + "/" + r + more, r, |head|)
  {
  }

  /** The segment between the first '/' and the next is unique, so
      CurrentRouteIsSecondSegment determines the route. */
  lemma SecondSegmentIsUnique(p: string, r1: string, i1: int, r2: string, i2: int)
    requires SecondSegment(p, r1, i1) && SecondSegment(p, r2, i2)
    ensures i1 == i2 && r1 == r2
  {
  }

  // ---------------------------------------------------------------------------
  // Page selection

  function NotIn(pages: seq<string>): string -> bool { (p: string) => p !in pages }
  function NotRoute(route: Option<string>): string -> bool { (p: string) => route != Some(p) }

  /** `allPages.filter(page => !mainPages.includes(page))`. */
  function OtherPages(allPages: seq<string>, mainPages: seq<string>): (r: seq<string>)
    ensures forall p :: p in r <==> p in allPages && p !in mainPages
  {
    Filter(allPages, NotIn(mainPages))
  }

  /** The other pages are exactly the non-main entries of allPages, each as often
      as it occurs there, in their original order. */
  lemma OtherPagesExact(allPages: seq<string>, mainPages: seq<string>)
    ensures forall p :: multiset(OtherPages(allPages, mainPages))[p]
                     == if p in mainPages then 0 else multiset(allPages)[p]
    ensures IsSubsequence(OtherPages(allPages, mainPages), allPages)
  {
    FilterCounts(allPages, NotIn(mainPages));
    FilterKeepsOrder(allPages, NotIn(mainPages));
  }

  /** `mainPages.filter(page => page !== currentRoute)`. */
  function AvailableMainPages(mainPages: seq<string>, route: Option<string>): (r: seq<string>)
    ensures forall p :: p in r <==> p in mainPages && route != Some(p)
  {
    Filter(mainPages, NotRoute(route))
  }

  predicate OnMainPage(mainPages: seq<string>, route: Option<string>)
  {
    route.Some? && route.value in mainPages
  }

  const MaxDisplayed: nat := 4

  /** The pages of the main navigation: on a main page, the first four of the
      other main pages followed by the non-main pages; elsewhere all main pages. */
  function DisplayedPages(mainPages: seq<string>, allPages: seq<string>, route: Option<string>): (r: seq<string>)
    ensures OnMainPage(mainPages, route) ==>
      var candidates := AvailableMainPages(mainPages, route) + OtherPages(allPages, mainPages);
      && |r| == Min(MaxDisplayed, |candidates|)
      && r == candidates[..|r|]
      && route.value !in r
    ensures !OnMainPage(mainPages, route) ==> r == mainPages
  {
    if OnMainPage(mainPages, route) then
      var candidates := AvailableMainPages(mainPages, route) + OtherPages(allPages, mainPages);
      candidates[..Min(MaxDisplayed, |candidates|)]
    else mainPages
  }

  /** The "More" button shows exactly when some page is not a main page. */
  function ShowMoreButton(allPages: seq<string>, mainPages: seq<string>): (b: bool)
    ensures b <==> exists p :: p in allPages && p !in mainPages
  {
    var others := OtherPages(allPages, mainPages);
    assert |others| > 0 ==> others[0] in others;
    |others| > 0
  }

  /** The desktop sidebar shows when the menu is open and there are other pages. */
  function SidebarVisible(isOpen: bool, allPages: seq<string>, mainPages: seq<string>): (b: bool)
    ensures b <==> isOpen && exists p :: p in allPages && p !in mainPages
  {
    isOpen && ShowMoreButton(allPages, mainPages)
  }

  /** The mobile menu lists the displayed pages, then every other page. */
  function MobileMenuPages(mainPages: seq<string>, allPages: seq<string>, route: Option<string>): (r: seq<string>)
    ensures forall p :: p in r <==> p in DisplayedPages(mainPages, allPages, route) || (p in allPages && p !in mainPages)
    ensures !OnMainPage(mainPages, route) ==> forall p :: p in r <==> p in mainPages || p in allPages
    ensures OnMainPage(mainPages, route) ==> route.value !in r
  {
    DisplayedPages(mainPages, allPages, route) + OtherPages(allPages, mainPages)
  }

  // ---------------------------------------------------------------------------
  // Labels and links

  /** `page.charAt(0).toUpperCase() + page.slice(1)`. */
  function Label(page: string): (r: string)
    ensures |r| == |page|
    ensures |page| > 0 ==> r[0] == UpperChar(page[0]) && r[1..] == page[1..]
  {
    if page == "" then "" else [UpperChar(page[0])] + page[1..]
  }

  /** A string without the separator splits into itself alone. */
  lemma {:induction false} SplitWithoutSeparator(s: string, sep: char)
    requires sep !in s
    ensures Split(s, sep) == [s]
  {
    if s != [] {
      SplitWithoutSeparator(s[1..], sep);
      assert s == [s[0]] + s[1..];
    }
  }

  /** Following "/" + page makes that page the current route, for any non-empty
      page name without a '/'. */
  lemma RouteOfSlashPage(page: string)
    ensures page != "" && '/' !in page ==> CurrentRoute("/" + page) == Some(page)
  {
    if page != "" && '/' !in page {
      SplitWithoutSeparator(page, '/');
      assert ("/" + page)[1..] == page;
      assert "/" + page != "/" by { assert |"/" + page| > 1; }
    }
  }

  /** Link of a page in the desktop navigation: following it makes the page the
      current route. */
  function DesktopHref(page: string): (href: string)
    ensures |href| > 0 && href[0] == '/'
    ensures page != "" && '/' !in page ==> CurrentRoute(href) == Some(page)
  {
    RouteOfSlashPage(page);
    if page == "home" then "/home" else "/" + page
  }

  /** Link of a page in the mobile menu: following it makes the page the current
      route, "home" included, whose link is the root. */
  function MobileHref(page: string): (href: string)
    ensures |href| > 0 && href[0] == '/'
    ensures href == "/" <==> page == "home" || page == ""
    ensures page != "" && '/' !in page ==> CurrentRoute(href) == Some(page)
  {
    RouteOfSlashPage(page);
    if page == "home" then "/" else "/" + page
  }

  /** Link of a page in the desktop sidebar: following it makes the page the
      current route. */
  function SidebarHref(page: string): (href: string)
    ensures |href| > 0 && href[0] == '/'
    ensures page != "" && '/' !in page ==> CurrentRoute(href) == Some(page)
  {
    RouteOfSlashPage(page);
    "/" + page
  }

  /** The desktop special case for "home" changes nothing: every desktop link is
      "/" followed by the page, the same as the sidebar's. */
  lemma DesktopHrefIsSlashPage(page: string)
    ensures DesktopHref(page) == "/" + page == SidebarHref(page)
  {
  }

  /** Desktop and mobile links disagree on exactly one page, "home": "/home" against "/". */
  lemma HrefsDisagreeOnlyOnHome(page: string)
    ensures DesktopHref(page) != MobileHref(page) <==> page == "home"
  {
  }
}

=== FILE: seqs.dfy ===
/** Sequence helpers shared by the components: `Array.prototype.filter` and
    the facts about it that the component properties rest on. */
module Seqs {

  function Min(a: int, b: int): int { if a <= b then a else b }

  /** `a` can be obtained from `b` by deleting elements (order kept). */
  predicate IsSubsequence<T(==)>(a: seq<T>, b: seq<T>)
    decreases |b|
  {
    if a == [] then true
    else if b == [] then false
    else if a[0] == b[0] then IsSubsequence(a[1..], b[1..])
    else IsSubsequence(a, b[1..])
  }

  lemma {:induction false} SubsequenceDropHead<T>(a: seq<T>, b: seq<T>)
    requires a != [] && IsSubsequence(a, b)
    ensures IsSubsequence(a[1..], b)
    decreases |b|, 1
  {
    if a[1..] != [] && b != [] {
      if a[0] == b[0] {
        SubsequenceSkip(a[1..], b);
      } else {
        SubsequenceDropHead(a, b[1..]);
        SubsequenceSkip(a[1..], b);
      }
    }
  }

  lemma {:induction false} SubsequenceSkip<T>(a: seq<T>, b: seq<T>)
    requires b != [] && IsSubsequence(a, b[1..])
    ensures IsSubsequence(a, b)
    decreases |b|, 0
  {
    if a != [] && a[0] == b[0] {
      SubsequenceDropHead(a, b[1..]);
    }
  }

  /** `s.filter(p)`: the elements of `s` that satisfy `p`, in their order. */
  function Filter<T(!new)>(s: seq<T>, p: T -> bool): (r: seq<T>)
    ensures |r| <= |s|
    ensures forall x :: x in r <==> x in s && p(x)
  {
    if s == [] then [] else (if p(s[0]) then [s[0]] else []) + Filter(s[1..], p)
  }

  /** The filter keeps every satisfying element as often as it occurs, and drops the rest. */
  lemma {:induction false} FilterCounts<T(!new)>(s: seq<T>, p: T -> bool)
    ensures forall x :: multiset(Filter(s, p))[x] == if p(x) then multiset(s)[x] else 0
  {
    if s != [] {
      FilterCounts(s[1..], p);
      assert s == [s[0]] + s[1..];
    }
  }

  /** The filter keeps the order of the elements it keeps. */
  lemma {:induction false} FilterKeepsOrder<T(!new)>(s: seq<T>, p: T -> bool)
    ensures IsSubsequence(Filter(s, p), s)
  {
    if s != [] {
      var rest := Filter(s[1..], p);
      FilterKeepsOrder(s[1..], p);
      if p(s[0]) {
        assert ([s[0]] + rest)[1..] == rest;
      } else {
        assert Filter(s, p) == rest;
        SubsequenceSkip(rest, s);
      }
    }
  }
}

=== FILE: session_list.dfy ===
/** The filtered, sorted session list of the study page and the notes preview
    shown for each session. */
module SessionList {
  import opened StudySessions
  import opened Seqs
  import opened Text

  /** The time-window selector: everything, or the last `days` days. */
  datatype TimeFilter = AllTime | LastDays(days: int)

  /** The subject search: the lower-cased search text occurs somewhere in the
      lower-cased subject. */
  predicate SubjectMatches(s: Session, search: string)
    ensures SubjectMatches(s, search) <==> exists i :: OccursAt(ToLower(s.subject), ToLower(search), i)
  {
    IncludesIffOccurs(ToLower(s.subject), ToLower(search));
    Includes(ToLower(s.subject), ToLower(search))
  }

  /** An empty tag filter is falsy and keeps every session; otherwise the tag
      must equal one of the session's tags. */
  predicate TagMatches(s: Session, tag: string)
    ensures TagMatches(s, tag) <==> tag == "" || exists i :: 0 <= i < |s.tags| && s.tags[i] == tag
  {
    tag == "" || tag in s.tags
  }

  /** The time window: "all" keeps everything; "last n days" keeps a session
      that started no more than n days before `now` (or at any later time). */
  predicate InTimeWindow(s: Session, window: TimeFilter, now: int)
    ensures window.AllTime? ==> InTimeWindow(s, window, now)
    ensures window.LastDays? ==> (InTimeWindow(s, window, now) <==> now - s.start <= window.days * DayMs)
  {
    window.AllTime? || s.start >= now - window.days * DayMs
  }

  /** A session survives the three filter stages. */
  predicate Kept(s: Session, search: string, tag: string, window: TimeFilter, now: int)
  {
    SubjectMatches(s, search) && TagMatches(s, tag) && InTimeWindow(s, window, now)
  }

  function BySubject(search: string): Session -> bool { (s: Session) => SubjectMatches(s, search) }
  function ByTag(tag: string): Session -> bool { (s: Session) => TagMatches(s, tag) }
  function ByTime(window: TimeFilter, now: int): Session -> bool { (s: Session) => InTimeWindow(s, window, now) }

  predicate SortedByStartDesc(s: seq<Session>)
  {
    forall i, j :: 0 <= i < j < |s| ==> s[i].start >= s[j].start
  }

  /** Inserts `x` before the first session that does not start later than it. */
  function InsertByStart(x: Session, s: seq<Session>): (r: seq<Session>)
    requires SortedByStartDesc(s)
    ensures SortedByStartDesc(r)
    ensures forall y :: y in r ==> y in s || y == x
    ensures multiset(r) == multiset(s) + multiset{x}
  {
    if s == [] || s[0].start <= x.start then [x] + s
    else
      var rest := InsertByStart(x, s[1..]);
      assert s == [s[0]] + s[1..];
      assert forall y :: y in s[1..] ==> y.start <= s[0].start;
      SortedCons(s[0], rest);
      [s[0]] + rest
  }

  lemma SortedCons(h: Session, rest: seq<Session>)
    requires SortedByStartDesc(rest)
    requires forall y :: y in rest ==> y.start <= h.start
    ensures SortedByStartDesc([h] + rest)
  {
  }

  /** `sort((a, b) => b.start - a.start)`: latest start first. */
  function SortByStartDesc(s: seq<Session>): (r: seq<Session>)
    ensures SortedByStartDesc(r)
    ensures multiset(r) == multiset(s)
  {
    if s == [] then []
    else
      assert s == [s[0]] + s[1..];
      InsertByStart(s[0], SortByStartDesc(s[1..]))
  }

  /** `filteredSessions`: subject search, then tag filter, then time window, then sort. */
  function FilteredSessions(sessions: seq<Session>, search: string, tag: string, window: TimeFilter, now: int)
    : (r: seq<Session>)
    ensures SortedByStartDesc(r)
    ensures forall x :: multiset(r)[x] == if Kept(x, search, tag, window, now) then multiset(sessions)[x] else 0
    ensures forall x :: x in r <==> x in sessions && Kept(x, search, tag, window, now)
  {
    var s1 := Filter(sessions, BySubject(search));
    var s2 := Filter(s1, ByTag(tag));
    var s3 := Filter(s2, ByTime(window, now));
    FilterCounts(sessions, BySubject(search));
    FilterCounts(s1, ByTag(tag));
    FilterCounts(s2, ByTime(window, now));
    SortByStartDesc(s3)
  }

  /** Every session's subject contains the empty search string. */
  lemma EmptySearchMatches(s: Session)
    ensures SubjectMatches(s, "")
  {
  }

  /** With no search, no tag and the "all" window the list is a reordering of every session. */
  lemma NoFilterKeepsEverySession(sessions: seq<Session>, now: int)
    ensures multiset(FilteredSessions(sessions, "", "", AllTime, now)) == multiset(sessions)
  {
  }

  /** A kept session's lower-cased subject contains the lower-cased search at some offset. */
  lemma KeptSubjectContainsSearch(sessions: seq<Session>, search: string, tag: string, window: TimeFilter,
                                  now: int, x: Session)
    requires x in FilteredSessions(sessions, search, tag, window, now)
    ensures exists i :: OccursAt(ToLower(x.subject), ToLower(search), i)
    ensures tag != "" ==> tag in x.tags
    ensures window.LastDays? ==> x.start >= now - window.days * DayMs
  {
    IncludesIffOccurs(ToLower(x.subject), ToLower(search));
  }

  const PreviewLength: nat := 100

  /** `notes.slice(0, 100)`, followed by "..." when the notes are longer. */
  function NotesPreview(notes: string): (r: string)
    ensures |notes| <= PreviewLength ==> r == notes
    ensures |notes| > PreviewLength ==>
      |r| == PreviewLength + 3 && IsPrefix(r[..PreviewLength], notes) && r[PreviewLength..] == "..."
  {
    notes[..Min(PreviewLength, |notes|)] + (if |notes| > PreviewLength then "..." else "")
  }
}

=== FILE: stats.dfy ===
/** The statistics panel of the study page: time studied today, time studied
    in the last seven days, and the number of sessions. */
module Stats {
  import opened StudySessions
  import opened Seqs

  function StartsAtOrAfter(cutoff: int): Session -> bool
  {
    (s: Session) => s.start >= cutoff
  }

  /** The sessions starting at or after `cutoff`, in order. */
  function Since(sessions: seq<Session>, cutoff: int): seq<Session>
  {
    Filter(sessions, StartsAtOrAfter(cutoff))
  }

  /** `reduce((acc, s) => acc + s.duration, 0)`. */
  function TotalDuration(sessions: seq<Session>): int
  {
    if sessions == [] then 0 else sessions[0].duration + TotalDuration(sessions[1..])
  }

  /** `totalToday`: durations of sessions starting at or after local midnight. */
  function TotalToday(sessions: seq<Session>, todayStart: int): (total: int)
    ensures total == DurationFrom(sessions, todayStart)
    ensures NonNegativeDurations(sessions) ==> total <= TotalDuration(sessions)
  {
    TotalSinceIsConditionalSum(sessions, todayStart);
    var total := TotalDuration(Since(sessions, todayStart));
    if NonNegativeDurations(sessions) then (CutoffTotalAtMostAll(sessions, todayStart); total) else total
  }

  /** `totalThisWeek`: durations of sessions starting within the last seven days of `now`. */
  function TotalThisWeek(sessions: seq<Session>, now: int): (total: int)
    ensures total == DurationFrom(sessions, now - 7 * DayMs)
    ensures NonNegativeDurations(sessions) ==> total <= TotalDuration(sessions)
  {
    TotalSinceIsConditionalSum(sessions, now - 7 * DayMs);
    var total := TotalDuration(Since(sessions, now - 7 * DayMs));
    if NonNegativeDurations(sessions) then (CutoffTotalAtMostAll(sessions, now - 7 * DayMs); total) else total
  }

  /** `sessions.length`: every session counts, repeated ones included. */
  function SessionCount(sessions: seq<Session>): (n: nat)
    ensures n == |multiset(sessions)|
  {
    |sessions|
  }

  predicate NonNegativeDurations(sessions: seq<Session>)
  {
    forall i :: 0 <= i < |sessions| ==> sessions[i].duration >= 0
  }

  /** The sum of durations over sessions starting at or after `cutoff`, stated
      directly over the list without the intermediate filter. */
  function DurationFrom(sessions: seq<Session>, cutoff: int): int
  {
    if sessions == [] then 0
    else (if sessions[0].start >= cutoff then sessions[0].duration else 0) + DurationFrom(sessions[1..], cutoff)
  }

  /** Filtering and then summing is the conditional sum. */
  lemma {:induction false} TotalSinceIsConditionalSum(sessions: seq<Session>, cutoff: int)
    ensures TotalDuration(Since(sessions, cutoff)) == DurationFrom(sessions, cutoff)
  {
    if sessions != [] {
      TotalSinceIsConditionalSum(sessions[1..], cutoff);
      if sessions[0].start >= cutoff {
        assert Since(sessions, cutoff) == [sessions[0]] + Since(sessions[1..], cutoff);
        assert ([sessions[0]] + Since(sessions[1..], cutoff))[1..] == Since(sessions[1..], cutoff);
      } else {
        assert Since(sessions, cutoff) == Since(sessions[1..], cutoff);
      }
    }
  }

  /** With non-negative durations a later cutoff never gives a larger total. */
  lemma {:induction false} LaterCutoffNoLarger(sessions: seq<Session>, early: int, late: int)
    requires NonNegativeDurations(sessions)
    requires early <= late
    ensures DurationFrom(sessions, late) <= DurationFrom(sessions, early)
  {
    if sessions != [] {
      assert NonNegativeDurations(sessions[1..]) by {
        assert forall i :: 0 <= i < |sessions| - 1 ==> sessions[1..][i] == sessions[i + 1];
      }
      LaterCutoffNoLarger(sessions[1..], early, late);
    }
  }

  /** With non-negative durations no cutoff gives more than the total of all sessions. */
  lemma {:induction false} CutoffTotalAtMostAll(sessions: seq<Session>, cutoff: int)
    requires NonNegativeDurations(sessions)
    ensures TotalDuration(Since(sessions, cutoff)) <= TotalDuration(sessions)
  {
    TotalSinceIsConditionalSum(sessions, cutoff);
    ConditionalSumAtMostAll(sessions, cutoff);
  }

  lemma {:induction false} ConditionalSumAtMostAll(sessions: seq<Session>, cutoff: int)
    requires NonNegativeDurations(sessions)
    ensures DurationFrom(sessions, cutoff) <= TotalDuration(sessions)
  {
    if sessions != [] {
      assert NonNegativeDurations(sessions[1..]) by {
        assert forall i :: 0 <= i < |sessions| - 1 ==> sessions[1..][i] == sessions[i + 1];
      }
      ConditionalSumAtMostAll(sessions[1..], cutoff);
    }
  }

  /** When local midnight lies within the last seven days, today's total is part of the week's. */
  lemma TodayAtMostThisWeek(sessions: seq<Session>, todayStart: int, now: int)
    requires NonNegativeDurations(sessions)
    requires now - 7 * DayMs <= todayStart
    ensures TotalToday(sessions, todayStart) <= TotalThisWeek(sessions, now)
  {
    TotalSinceIsConditionalSum(sessions, todayStart);
    TotalSinceIsConditionalSum(sessions, now - 7 * DayMs);
    LaterCutoffNoLarger(sessions, now - 7 * DayMs, todayStart);
  }

  /** With no sessions, both totals and the count are zero. */
  lemma EmptyStats(todayStart: int, now: int)
    ensures TotalToday([], todayStart) == 0 && TotalThisWeek([], now) == 0 && SessionCount([]) == 0
  {
  }

  /** A session added at the front of the list raises a total by its duration
      exactly when it starts at or after that total's cutoff. */
  lemma NewSessionAddsItsDuration(s: Session, sessions: seq<Session>, cutoff: int)
    ensures TotalDuration(Since([s] + sessions, cutoff))
         == (if s.start >= cutoff then s.duration else 0) + TotalDuration(Since(sessions, cutoff))
    ensures SessionCount([s] + sessions) == SessionCount(sessions) + 1
  {
    TotalSinceIsConditionalSum([s] + sessions, cutoff);
    TotalSinceIsConditionalSum(sessions, cutoff);
    assert ([s] + sessions)[1..] == sessions;
  }
}

=== FILE: study_sessions.dfy ===
/** The study-session record shared by the session list and the statistics
    panel, with times in milliseconds since the epoch. */
module StudySessions {

  datatype Session = Session(
    id: string,
    subject: string,
    tags: seq<string>,
    notes: string,
    start: int,
    end: int,
    duration: int)

  /** Milliseconds in a day: 24 * 60 * 60 * 1000. */
  const DayMs: int := 24 * 60 * 60 * 1000
}

=== FILE: text.dfy ===
/** String operations the components call on JavaScript strings, restricted
    to ASCII: `toLowerCase`, `toUpperCase` and `includes`. */
module Text {

  function LowerChar(c: char): char
  {
    if 'A' <= c <= 'Z' then (c as int + 32) as char else c
  }

  function UpperChar(c: char): char
  {
    if 'a' <= c <= 'z' then (c as int - 32) as char else c
  }

  /** `s.toLowerCase()`, letter by letter. */
  function ToLower(s: string): (r: string)
    ensures |r| == |s|
    ensures forall i :: 0 <= i < |s| ==> r[i] == LowerChar(s[i])
  {
    seq(|s|, i requires 0 <= i < |s| => LowerChar(s[i]))
  }

  predicate IsPrefix(p: string, s: string)
  {
    |p| <= |s| && s[..|p|] == p
  }

  /** The meaning of `s.includes(sub)`: `sub` occurs in `s` at some offset. */
  ghost predicate OccursAt(s: string, sub: string, i: int)
  {
    0 <= i && i + |sub| <= |s| && s[i..i + |sub|] == sub
  }

  /** `s.includes(sub)`, computed by trying every offset from the left. */
  function Includes(s: string, sub: string): (r: bool)
    ensures r ==> |sub| <= |s|
    ensures IsPrefix(sub, s) ==> r
    decreases |s|
  {
    IsPrefix(sub, s) || (s != [] && Includes(s[1..], sub))
  }

  lemma {:induction false} IncludesIffOccurs(s: string, sub: string)
    ensures Includes(s, sub) <==> exists i :: OccursAt(s, sub, i)
  {
    if Includes(s, sub) {
      var i := IncludesWitness(s, sub);
    }
    forall i | OccursAt(s, sub, i) ensures Includes(s, sub) {
      OccursIncludes(s, sub, i);
    }
  }

  lemma {:induction false} IncludesWitness(s: string, sub: string) returns (i: int)
    requires Includes(s, sub)
    ensures OccursAt(s, sub, i)
    decreases |s|
  {
    if IsPrefix(sub, s) {
      i := 0;
    } else {
      var j := IncludesWitness(s[1..], sub);
      assert s[j + 1..j + 1 + |sub|] == s[1..][j..j + |sub|];
      i := j + 1;
    }
  }

  lemma {:induction false} OccursIncludes(s: string, sub: string, i: int)
    requires OccursAt(s, sub, i)
    ensures Includes(s, sub)
    decreases i
  {
    if i == 0 {
      assert IsPrefix(sub, s);
    } else {
      assert s[1..][i - 1..i - 1 + |sub|] == s[i..i + |sub|];
      OccursIncludes(s[1..], sub, i - 1);
    }
  }

  /** Every string includes the empty string. */
  lemma IncludesEmpty(s: string)
    ensures Includes(s, "")
  {
  }
}

=== FILE: wrappers.dfy ===
/** The optional-value type the model uses for JavaScript's `null` and `undefined`. */
module Wrappers {
  datatype Option<+T> = None | Some(value: T)
}
